=== FILE: README.md ===
# immo-bot sheet store, in Dafny

immo-bot is a Telegram bot that helps an estate agent fill in a property
sheet ("fiche") of real-estate fields, one sheet per Telegram user. This
project models the part of `bot.py` that has logic:

- the field template `CHAMPS_BIEN` and the eight display categories of `/fiche`;
- the conversation store `conversations` and how `/start`, `/reset` and plain text messages change it;
- the `/fiche` view (`voir_fiche`) and the `/manque` view (`voir_manque`);
- how a field key becomes a label (`replace("_", " ").capitalize()`);
- how a text message is echoed back, cut to 100 characters.

Modules, one per concern:

- `Seqs` (seqs.dfy): generic sequence predicates.
- `Schema` (schema.dfy): the template and the category table.
- `Labels` (labels.dfy): key labels.
- `Sheets` (sheets.dfy): a sheet as an ordered list of entries, and the queries the views make of it.
- `Views` (views.dfy): the two views, as structured replies.
- `Bot` (bot.dfy): the store, the handlers and the command routing.

The template holds 44 keys, although the comment above it speaks of 40
fields. The model follows the code: every count here is 44.

A sheet is a sequence of entries, not a map. `voir_manque` lists the unset
fields in dict insertion order, so that order matters. A reply is a
datatype naming which message is sent, with the data put into it; the
French wording is not modelled.

Nothing in the handlers ever sets a field; value extraction is announced
for a later version. `Bot.RunKeepsSheetsFresh` states the consequence:
every sheet the bot stores is a fresh template copy. The views are
nevertheless modelled, and proved, for arbitrary sheets.

A user who never sent `/start` or a text message has no sheet. `/fiche`
then shows the empty-sheet message. `/manque` looks the user up as `{}`,
finds no unset field, and sends the congratulation for a complete sheet
(`Bot.ShowMissing`).

## Model

| member | source | states |
|---|---|---|
| Schema.CategoriesPartitionFields | bot.py:128-137 | There are eight categories. Each lists distinct keys and no key is listed twice. Their lists, concatenated, are the 44 template keys in template order. A key is in the template exactly when some category lists it. |
| Schema.CategoriesMatchTemplate | bot.py:20-80 | Concatenating the category lists gives the template's keys in dict order. |
| Schema.FlattenNoDuplicates | bot.py:139-141 | When categories partition their keys, walking them category by category meets no key twice. |
| Schema.CategoryOf | bot.py:128-137 | Every key the categories list belongs to a category that lists it. |
| Sheets.Fresh | bot.py:95 | The copy of the template has exactly the template's keys in order, 44 of them, with no field set; looking up any key gives unset. |
| Sheets.Get | bot.py:142 | A lookup finds a value only under a key the sheet has; any other key reads as unset. |
| Sheets.IsBlank | bot.py:116 | The sheet has no key, or every field of it is unset. |
| Sheets.BlankReadsUnset | bot.py:116 | A blank sheet reads as unset under every key. |
| Sheets.GetFindsEntry | bot.py:142 | `fiche.get(k)` returns the value of the entry stored under `k`. A missing key reads as unset. |
| Sheets.CountFilledExtremes | bot.py:198 | The set-field count is 0 exactly when the sheet is blank. It equals the key count exactly when every field is set. |
| Sheets.CountFilled | bot.py:198 | The number of set fields never exceeds the number of keys. |
| Sheets.UnsetKeys | bot.py:161-165 | The unset fields plus the set fields account for every key of the sheet. |
| Sheets.SetKeys | bot.py:141-146 | No more keys are shown than were scanned, and each shown key has its field set. `Sheets.SetKeysMembers` gives the membership in both directions. |
| Sheets.SetKeysMembers | bot.py:141-143 | A scanned key is shown exactly when its field is set. |
| Sheets.SetKeysInOrder | bot.py:141-143 | Shown keys keep the scan order. |
| Sheets.SetKeysOfOwnKeys | bot.py:198 | Scanning a sheet's own distinct keys finds each set field once. |
| Sheets.CategoryCountIsFilledCount | bot.py:139-146 | On a well-formed sheet, counting the shown fields category by category gives the number of set fields. |
| Sheets.UnsetKeysComplete | bot.py:161-165 | Every unset entry's key is among the missing keys. |
| Sheets.UnsetKeysSound | bot.py:161-165 | Every missing key belongs to an unset entry. |
| Sheets.UnsetKeysInOrder | bot.py:163 | The missing keys keep the sheet's key order. |
| Sheets.UnsetKeysOfBlank | bot.py:161-165 | On a sheet with nothing set, the missing keys are all its keys, in order. |
| Sheets.UnsetKeysAreFields | bot.py:161-165 | On a well-formed sheet, every missing key is a template key. |
| Labels.Capitalize | bot.py:144 | `capitalize` keeps the length and the letters up to case; no lower-case letter comes first and no upper-case letter comes after it. |
| Labels.Humanize | bot.py:144 | A label is as long as its key. |
| Labels.HumanizeShape | bot.py:144 | A label holds no underscore and starts with no lower-case letter. Its other letters are lower case. Up to letter case, it is the key with every `_` read as a space. |
| Labels.HumanizeIdempotent | bot.py:162 | Labelling a label changes nothing. |
| Labels.HumanizeInjective | bot.py:144 | Two snake-case keys with the same label are the same key. |
| Labels.FieldsSnakeCase | bot.py:20-80 | Every template key is in lower-case snake case. |
| Labels.FieldLabelsDistinct | bot.py:144 | No two template fields share a label, so no view shows one label for two fields. |
| Labels.HumanizeNombreChambres | bot.py:144 | `nombre_chambres` is shown as `Nombre chambres`. |
| Labels.LabelsOf | bot.py:161-165 | The labels list has one label per key, in the keys' order. |
| Labels.LabelOfMember | bot.py:162 | Each listed key's label is among the listed labels. |
| Labels.LabelHasKey | bot.py:162 | Each listed label is the label of a listed key. |
| Views.Items | bot.py:140-146 | A category's item lines are one item line per set key. |
| Views.ItemsShowSetKeys | bot.py:141-145 | The i-th item line carries the i-th set key's label and that key's value. |
| Views.Section | bot.py:147-149 | A category's section is empty exactly when none of its fields is set. Otherwise it is its header followed by one item line per set field. |
| Views.Body | bot.py:139-149 | The body holds header and item lines only, and has at least as many lines as there are set fields the categories list. `Views.BodyItems` fixes the item lines. |
| Views.BodyLines | bot.py:139-149 | Every body line is an item line or the header of a category with a set field. |
| Views.RenderSheet | bot.py:114-151 | The empty-sheet message is sent exactly when the sheet is empty or all unset. Otherwise the report opens with the title, then the progress line. The progress line counts the set fields the categories list, out of the sheet's key count; on a well-formed sheet that is the set-field count out of 44. |
| Views.Render | bot.py:114-151 | For any category table: the empty-sheet message exactly when the sheet is empty or all unset; otherwise a report opening with the title and the progress line, which counts the set fields the table lists out of the sheet's key count. |
| Views.RenderLoop | bot.py:124-151 | The two nested loops build exactly the reply `Views.Render` describes, for any category table. |
| Views.CategoryLines | bot.py:140-146 | The inner loop collects exactly the category's item lines. |
| Views.RenderSheetLoop | bot.py:111-153 | `voir_fiche`, written as loops, gives the same reply as `Views.RenderSheet`. |
| Views.BodyItems | bot.py:139-149 | Past the headers, the report lists the item lines of all category keys, one category after another. |
| Views.ReportItems | bot.py:139-149 | Read past the title, the progress line and the headers, the report's item lines are exactly one `label: value` line per set template field, in template order. |
| Views.ReportShowsSetFields | bot.py:139-149 | A line `l: v` appears in the report exactly when some template key labelled `l` holds `v`, so an unset field is never shown. |
| Views.RenderLines | bot.py:139-151 | For any category table, every line after the title and the progress line is an item line or the header of a category with a set field. |
| Views.ReportLines | bot.py:139-151 | Past its title and progress line, the `/fiche` report holds only item lines and the headers of categories with a set field. With `Views.ReportItems` and `Views.ReportSectionAt`, this fixes every line of the report. |
| Views.ReportShowsFilledCategories | bot.py:147-149 | A category's header appears in the report exactly when one of its fields is set. |
| Views.SectionHeaders | bot.py:147-149 | A category's section has its own header only, and only when the category has a set field. |
| Views.BodySectionAt | bot.py:139-149 | In the body, a category with a set field has its header exactly once, directly followed by that category's item lines. |
| Views.RenderSectionAt | bot.py:139-151 | The same holds in the whole report, after the title and the progress line, for any category table with distinct names. |
| Views.ReportSectionAt | bot.py:147-149 | In the `/fiche` report, a category with a set field has its header exactly once, directly followed by that category's item lines, so each set field is shown under its own category. |
| Views.MissingReply | bot.py:159-173 | The congratulation is sent exactly when every field of the sheet is set. Otherwise the list holds the labels of the unset keys in sheet order, and its count equals both the list length and the number of unset fields. |
| Views.MissingListsUnsetFields | bot.py:161-165 | Every unset field's label is listed. Every listed label names an unset field. The fields are listed in the sheet's key order. |
| Bot.Start | bot.py:92-95 | `/start` gives the user a fresh sheet. The store gains the user and no one else. Other users' sheets are unchanged. Well-formed and untouched stores stay so. |
| Bot.Reset | bot.py:176-179 | `/reset` changes the store exactly as `/start` does. |
| Bot.Lookup | bot.py:114 | A user without a sheet reads as an empty sheet. On a well-formed store, the sheet read is well-formed exactly when the user has one. |
| Bot.Echo | bot.py:206 | A message of at most 100 characters is echoed whole. A longer one is echoed as its first 100 characters followed by `...`. The echo is over 100 characters exactly when the message is. |
| Bot.EchoSame | bot.py:206 | Two messages have the same echo exactly when they are both short and equal, or both long and agree on their first 100 characters. |
| Bot.HandleMessage | bot.py:186-206 | A user without a sheet gets a fresh one; an existing sheet is left as it is. The reply counts the user's set fields out of their sheet's key count, which is 44 on a well-formed store, and echoes the message. |
| Bot.ShowSheet | bot.py:113-121 | A user without a sheet is shown the empty-sheet message. Otherwise the reply is `Views.RenderSheet` of the user's sheet. Its first line is the title. On a well-formed store, its second line is the progress over 44. |
| Bot.ShowMissing | bot.py:158-168 | A user without a sheet gets the congratulation. A user with a sheet gets `Views.MissingReply` of their sheet, which is the congratulation exactly when every field is set. |
| Bot.Dispatch | bot.py:224-230 | `/start` and `/reset` store a fresh sheet for the user and reply with their own message. `/fiche` replies with `Bot.ShowSheet` and `/manque` with `Bot.ShowMissing`. A text message gives the user a sheet if they had none and is acknowledged with their count and the echo. Only the four commands and plain text messages get a reply. A reply-less update, `/fiche` and `/manque` leave the store as it is. No update removes a user. Every handler keeps the store well-formed and untouched. |
| Bot.Run | bot.py:17 | Updates are handled one after another; no user ever loses their sheet. |
| Bot.RunPreserves | bot.py:17 | After any sequence of updates, a well-formed store stays well-formed and an untouched store stays untouched. |
| Bot.RunKeepsSheetsFresh | bot.py:17 | Starting from the empty store, every stored sheet stays a fresh template copy. |
| Bot.FreshIsBlank | bot.py:95 | A fresh sheet is blank, and its missing keys are the whole template in order. |
| Bot.UntouchedReplies | bot.py:195-206 | While no field is set, `/fiche` shows the empty-sheet message and a text message is acknowledged as 0 of 44. |
| Bot.UntouchedMissing | bot.py:159-172 | While no field is set, `/manque` lists all 44 labels in template order for a user with a sheet, none of them twice. |
| Bot.AfterStart | bot.py:176-183 | Right after `/start` or `/reset`, `/fiche` shows the empty-sheet message. The next text message is acknowledged as 0 of 44 and leaves the store as it is. |
| Bot.AfterStartMissing | bot.py:92-95 | Right after `/start`, `/manque` lists all 44 labels in template order. |

## Left out

- Telegram I/O (`Update`, `reply_text`, `run_polling`) is not modelled. A handler returns the new store and the reply instead of sending it.
- Which text counts as a command is not modelled. Telegram marks a command with a message entity, and `CommandHandler` also accepts `/start@botname` and arguments. An `Event` is given already classified as a command name, a plain text or anything else.
- The token check and the `print` calls in `main`, and the module-level logging setup, are environment and console I/O.
- The French wording, emoji and Markdown markup of every message are not modelled. Each fixed message is a constructor of `Reply`. A reply that Telegram cannot parse as Markdown is not modelled either. An example is an echo holding an unpaired `_` or `*`. For such a reply, `reply_text` would raise after the new sheet is stored, and no acknowledgement would be sent. In the model, `Bot.HandleMessage` always returns an `Ack`.
- Turning a field value into text in `{val}` is not modelled. An item line carries the `Value` itself.
- A field value is a JSON scalar: string, integer, non-integer number or boolean. JSON lists and objects are not modelled, because nothing in the source stores a value at all.
- Humanize: only ASCII letters change case. Python's `capitalize` also maps non-ASCII letters, but every template key is ASCII.
- The `json.loads(json.dumps(...))` copy is modelled as value semantics. A sheet is an immutable value.
- Concurrent handling of messages from the same user is not modelled, because it is interleaving of async handlers.
- The voice-message transcription pipeline is not part of this model, because it is not in `bot.py`.
- Field extraction from messages is not modelled, because the source does not implement it yet.

=== FILE: bot.dfy ===
/**
 The conversation store and the handlers of bot.py: `/start`, `/reset`,
 `/fiche`, `/manque` and plain text messages, and the dispatch that main()
 sets up between them.

 The store is the module-level dict `conversations`, from a Telegram user id
 to that user's sheet; here each handler takes the store and returns the
 new store together with the reply it sends. No handler ever stores a field
 value: extraction of values from a message is announced for a later
 version and is not in the source.
 */
module Bot {

  import opened Seqs
  import opened Schema
  import opened Labels
  import opened Sheets
  import opened Views

  /** A Telegram user id (`update.effective_user.id`). */
  type UserId = int

  /** `conversations`: each user's sheet. */
  type Store = map<UserId, Sheet>

  /** Every stored sheet has exactly the template's keys, in order. */
  predicate StoreWellFormed(st: Store) {
    forall u :: u in st ==> WellFormed(st[u])
  }

  /** Every stored sheet is still a fresh copy of the template. Since no
      handler writes a field, this holds of every store the bot reaches. */
  predicate StoreUntouched(st: Store) {
    forall u :: u in st ==> st[u] == Fresh()
  }

  /** The user's sheet, read with an empty sheet as the default. On a
      well-formed store the result is well-formed exactly for a user with a
      sheet; a user without one reads as an empty sheet. */
  function Lookup(st: Store, u: UserId): (r: Sheet)
    ensures u !in st ==> r == []
    ensures StoreWellFormed(st) ==> (WellFormed(r) <==> u in st)
  {
    CategoriesPartitionFields();
    if u in st then st[u] else []
  }

  /** `/start`: the user gets a fresh copy of the template, replacing any
      sheet they had; every other user's sheet is kept. */
  function Start(st: Store, u: UserId): (r: (Store, Reply))
    ensures r.1 == Welcome
    ensures r.0.Keys == st.Keys + {u}
    ensures WellFormed(r.0[u]) && CountFilled(r.0[u]) == 0
    ensures forall v :: v in st && v != u ==> r.0[v] == st[v]
    ensures StoreWellFormed(st) ==> StoreWellFormed(r.0)
    ensures StoreUntouched(st) ==> StoreUntouched(r.0)
  {
    (st[u := Fresh()], Welcome)
  }

  /** `/reset`: the same store change as `/start`, with its own reply. */
  function Reset(st: Store, u: UserId): (r: (Store, Reply))
    ensures r.1 == ResetDone
    ensures r.0 == Start(st, u).0
  {
    (st[u := Fresh()], ResetDone)
  }

  /** The longest prefix of a message the acknowledgement repeats. */
  const EchoLimit: nat := 100

  /** `texte[:100]` followed by `...` when the message is longer: a message
      of at most 100 characters is repeated whole, a longer one is cut to
      its first 100 characters and marked as cut. */
  function Echo(text: string): (r: string)
    ensures |text| <= EchoLimit ==> r == text
    ensures |text| > EchoLimit ==> |r| == EchoLimit + 3 && r[..EchoLimit] == text[..EchoLimit] && r[EchoLimit..] == "..."
    ensures |r| > EchoLimit <==> |text| > EchoLimit
  {
    if |text| <= EchoLimit then text else text[..EchoLimit] + "..."
  }

  /** Two messages get the same echo exactly when both are short and equal,
      or both are long and agree on their first 100 characters. */
  lemma EchoSame(a: string, b: string)
    ensures Echo(a) == Echo(b) <==>
      || (|a| <= EchoLimit && |b| <= EchoLimit && a == b)
      || (|a| > EchoLimit && |b| > EchoLimit && a[..EchoLimit] == b[..EchoLimit])
  {
    if Echo(a) == Echo(b) && |a| > EchoLimit && |b| > EchoLimit {
      assert a[..EchoLimit] == Echo(a)[..EchoLimit];
    }
  }

  /** A plain text message: the user gets a sheet if they have none, and the
      reply counts the set fields of their sheet out of its key count and
      repeats the message, cut to 100 characters. An existing sheet is left
      as it is. */
  function HandleMessage(st: Store, u: UserId, text: string): (r: (Store, Reply))
    ensures u in r.0
    ensures u in st ==> r.0 == st
    ensures u !in st ==> r.0 == Start(st, u).0
    ensures r.1 == Ack(CountFilled(r.0[u]), |r.0[u]|, Echo(text))
    ensures r.1.filled <= r.1.total
    ensures StoreWellFormed(st) ==> StoreWellFormed(r.0) && r.1.total == FieldCount
    ensures StoreUntouched(st) ==> StoreUntouched(r.0) && r.1.filled == 0
  {
    var st' := if u in st then st else st[u := Fresh()];
    var fiche := st'[u];
    (st', Ack(CountFilled(fiche), |fiche|, Echo(text)))
  }

  /** `/fiche` for user `u`; a user without a sheet is shown an empty one. */
  function ShowSheet(st: Store, u: UserId): (r: Reply)
    ensures u !in st ==> r == EmptySheet
    ensures r.EmptySheet? <==> IsBlank(Lookup(st, u))
    ensures r.Report? ==> |r.lines| >= 2 && r.lines[0] == Title
    ensures StoreWellFormed(st) && u in st && r.Report? ==> r.lines[1] == Progress(CountFilled(st[u]), FieldCount)
    ensures u in st ==> r == RenderSheet(st[u])
  {
    RenderSheet(Lookup(st, u))
  }

  /** `/manque` for user `u`. A user without a sheet has no unset field, so
      is told that every field is filled. */
  function ShowMissing(st: Store, u: UserId): (r: Reply)
    ensures u !in st ==> r == AllComplete
    ensures u in st ==> (r.AllComplete? <==> CountFilled(st[u]) == |st[u]|)
    ensures u in st ==> r == MissingReply(st[u])
  {
    MissingReply(Lookup(st, u))
  }

  /** What reaches the bot: one of its commands (the name after `/`), or a
      text message that is not a command, or anything else (a photo, a
      voice note, a sticker). */
  datatype Event = Command(name: string) | Text(text: string) | Other

  /** The handlers main() registers: the four commands, and plain text
      messages. Any other update gets no reply and leaves the store as it is. */
  function Dispatch(st: Store, u: UserId, e: Event): (r: (Store, Option<Reply>))
    ensures r.1 == None ==> r.0 == st
    ensures st.Keys <= r.0.Keys
    ensures r.1 == None <==> e.Other? || (e.Command? && e.name !in {"start", "fiche", "manque", "reset"})
    ensures e.Command? && e.name in {"fiche", "manque"} ==> r.0 == st
    ensures e == Command("start") ==> r == (Start(st, u).0, Some(Welcome))
    ensures e == Command("reset") ==> r == (Start(st, u).0, Some(ResetDone))
    ensures e == Command("fiche") ==> r.1 == Some(ShowSheet(st, u))
    ensures e == Command("manque") ==> r.1 == Some(ShowMissing(st, u))
    ensures e.Text? ==> u in r.0 && r.1 == Some(Ack(CountFilled(r.0[u]), |r.0[u]|, Echo(e.text)))
    ensures e.Text? ==> r.0 == if u in st then st else Start(st, u).0
    ensures StoreWellFormed(st) ==> StoreWellFormed(r.0)
    ensures StoreUntouched(st) ==> StoreUntouched(r.0)
  {
    match e
    case Command(name) =>
      if name == "start" then var (st', reply) := Start(st, u); (st', Some(reply))
      else if name == "reset" then var (st', reply) := Reset(st, u); (st', Some(reply))
      else if name == "fiche" then (st, Some(ShowSheet(st, u)))
      else if name == "manque" then (st, Some(ShowMissing(st, u)))
      else (st, None)
    case Text(text) => var (st', reply) := HandleMessage(st, u, text); (st', Some(reply))
    case Other => (st, None)
  }

  /** The store after the events, handled one after another, starting from
      `st`. No user ever loses their sheet. */
  function Run(st: Store, events: seq<(UserId, Event)>): (r: Store)
    ensures st.Keys <= r.Keys
    decreases |events|
  {
    if |events| == 0 then st
    else Run(Dispatch(st, events[0].0, events[0].1).0, events[1..])
  }

  /** Whatever events arrive, an untouched store stays untouched and a
      well-formed one stays well-formed, since no handler writes a field. */
  lemma {:induction false} RunPreserves(st: Store, events: seq<(UserId, Event)>)
    ensures StoreUntouched(st) ==> StoreUntouched(Run(st, events))
    ensures StoreWellFormed(st) ==> StoreWellFormed(Run(st, events))
    decreases |events|
  {
    if |events| > 0 {
      RunPreserves(Dispatch(st, events[0].0, events[0].1).0, events[1..]);
    }
  }

  /** The bot starts with no conversation, so every sheet it ever stores is
      a fresh template copy. */
  lemma RunKeepsSheetsFresh(events: seq<(UserId, Event)>)
    ensures StoreUntouched(Run(map[], events))
    ensures StoreWellFormed(Run(map[], events))
  {
    RunPreserves(map[], events);
  }

  /** A fresh sheet is blank and every one of its fields is missing. */
  lemma FreshIsBlank()
    ensures IsBlank(Fresh())
    ensures UnsetKeys(Fresh()) == Fields
  {
    var f := Fresh();
    CountFilledExtremes(f);
    UnsetKeysOfBlank(f);
  }

  /** On an untouched store, `/fiche` always shows the empty-sheet message
      and a text message is acknowledged as no field filled out of 44. */
  lemma {:induction false} UntouchedReplies(st: Store, u: UserId, text: string)
    requires StoreUntouched(st)
    ensures ShowSheet(st, u) == EmptySheet
    ensures HandleMessage(st, u, text).1 == Ack(0, FieldCount, Echo(text))
  {
    FreshIsBlank();
  }

  /** On an untouched store, `/manque` lists the label of every template
      field, in template order, for a user with a sheet, and no label twice. */
  lemma {:induction false} UntouchedMissing(st: Store, u: UserId)
    requires StoreUntouched(st) && u in st
    ensures ShowMissing(st, u) == MissingList(LabelsOf(Fields), FieldCount)
    ensures NoDuplicates(ShowMissing(st, u).labels)
  {
    FreshIsBlank();
    CountFilledExtremes(st[u]);
    FieldLabelsDistinct();
  }

  /** Right after `/start` or `/reset`, whatever the store held, `/fiche`
      shows the empty-sheet message, and a text message leaves the store as
      it is and is acknowledged as no field filled out of 44. */
  lemma {:induction false} AfterStart(st: Store, u: UserId, text: string)
    ensures ShowSheet(Start(st, u).0, u) == EmptySheet
    ensures ShowSheet(Reset(st, u).0, u) == EmptySheet
    ensures HandleMessage(Start(st, u).0, u, text) == (Start(st, u).0, Ack(0, FieldCount, Echo(text)))
  {
    FreshIsBlank();
  }

  /** Right after `/start` or `/reset`, `/manque` lists the label of every
      template field, in template order, with the count 44. */
  lemma {:induction false} AfterStartMissing(st: Store, u: UserId)
    ensures ShowMissing(Start(st, u).0, u) == MissingList(LabelsOf(Fields), FieldCount)
  {
    UntouchedMissing(map[u := Fresh()], u);
  }

}

=== FILE: labels.dfy ===
/**
 Field labels: how a template key is shown to the user, as
 `key.replace("_", " ").capitalize()` in bot.py. Only ASCII letters change
 case; every other character is kept, which covers every template key.
 */
module Labels {

  import opened Seqs
  import opened Schema

  /** The upper-case form of an ASCII lower-case letter; any other character is kept. */
  function UpperAscii(c: char): char {
    if 'a' <= c <= 'z' then (c as int - 32) as char else c
  }

  /** The lower-case form of an ASCII upper-case letter; any other character is kept. */
  function LowerAscii(c: char): char {
    if 'A' <= c <= 'Z' then (c as int + 32) as char else c
  }

  /** One character of `replace("_", " ")`. */
  function Unscore(c: char): char {
    if c == '_' then ' ' else c
  }

  /** `str.capitalize()`: the same letters up to case, with no lower-case
      letter first and no upper-case letter after it. */
  function Capitalize(s: string): (r: string)
    ensures |r| == |s|
    ensures |s| > 0 ==> !('a' <= r[0] <= 'z')
    ensures forall i :: 0 < i < |r| ==> !('A' <= r[i] <= 'Z')
    ensures forall i :: 0 <= i < |r| ==> LowerAscii(r[i]) == LowerAscii(s[i])
  {
    if |s| == 0 then [] else [UpperAscii(s[0])] + seq(|s| - 1, i requires 0 <= i < |s| - 1 => LowerAscii(s[i + 1]))
  }

  /** The label of field key `k`. */
  function Humanize(k: Key): (r: string)
    ensures |r| == |k|
  {
    Capitalize(seq(|k|, i requires 0 <= i < |k| => Unscore(k[i])))
  }

  /** A label has the key's length, keeps no underscore, starts with no
      lower-case letter and continues with no upper-case one, and spells the
      key up to letter case with every underscore read as a space. */
  lemma HumanizeShape(k: Key)
    ensures '_' !in Humanize(k)
    ensures |k| > 0 ==> !('a' <= Humanize(k)[0] <= 'z')
    ensures forall i :: 0 < i < |k| ==> !('A' <= Humanize(k)[i] <= 'Z')
    ensures forall i :: 0 <= i < |k| ==> LowerAscii(Humanize(k)[i]) == LowerAscii(Unscore(k[i]))
  {
  }

  /** A label is already in label form: humanizing it again changes nothing. */
  lemma HumanizeIdempotent(k: Key)
    ensures Humanize(Humanize(k)) == Humanize(k)
  {
    var h := Humanize(k);
    var hh := Humanize(h);
    HumanizeShape(k);
    forall i | 0 <= i < |h|
      ensures hh[i] == h[i]
    {
      if i == 0 {
        assert hh[0] == UpperAscii(Unscore(h[0]));
      } else {
        assert hh[i] == LowerAscii(Unscore(h[i]));
      }
    }
  }

  lemma HumanizeNombreChambres()
    ensures Humanize("nombre_chambres") == "Nombre chambres"
  {
  }

  /** A key written in lower-case snake case: ASCII lower-case letters,
      digits and underscores, starting with a letter. */
  predicate SnakeCase(k: Key) {
    && |k| > 0
    && 'a' <= k[0] <= 'z'
    && forall i :: 0 <= i < |k| ==> ('a' <= k[i] <= 'z' || '0' <= k[i] <= '9' || k[i] == '_')
  }

  /** On snake-case keys the label determines the key. */
  lemma HumanizeInjective(a: Key, b: Key)
    requires SnakeCase(a) && SnakeCase(b)
    requires Humanize(a) == Humanize(b)
    ensures a == b
  {
    var h := Humanize(a);
    HumanizeShape(a);
    HumanizeShape(b);
    assert |a| == |b|;
    forall i | 0 <= i < |a|
      ensures a[i] == b[i]
    {
      assert LowerAscii(h[i]) == LowerAscii(Unscore(a[i])) == LowerAscii(Unscore(b[i]));
    }
  }

  /** The labels of `keys`, in the same order. */
  function LabelsOf(keys: seq<Key>): (r: seq<string>)
    ensures |r| == |keys|
    ensures forall i :: 0 <= i < |keys| ==> r[i] == Humanize(keys[i])
  {
    seq(|keys|, i requires 0 <= i < |keys| => Humanize(keys[i]))
  }

  lemma LabelOfMember(keys: seq<Key>, k: Key)
    requires k in keys
    ensures Humanize(k) in LabelsOf(keys)
  {
    var i :| 0 <= i < |keys| && keys[i] == k;
    assert LabelsOf(keys)[i] == Humanize(k);
  }

  /** Every listed label is the label of a listed key. */
  lemma LabelHasKey(keys: seq<Key>, l: string)
    requires l in LabelsOf(keys)
    ensures exists k :: k in keys && Humanize(k) == l
  {
    var i :| 0 <= i < |keys| && LabelsOf(keys)[i] == l;
    assert keys[i] in keys;
  }

  // The keys of each template group are in snake case, group by group.

  lemma GeneralInfoSnakeCase()
    ensures forall i :: 0 <= i < |GeneralInfo| ==> SnakeCase(GeneralInfo[i])
  {
  }

  lemma SurfaceInfoSnakeCase()
    ensures forall i :: 0 <= i < |SurfaceInfo| ==> SnakeCase(SurfaceInfo[i])
  {
  }

  lemma RoomInfoSnakeCase()
    ensures forall i :: 0 <= i < |RoomInfo| ==> SnakeCase(RoomInfo[i])
  {
  }

  lemma FeatureInfoSnakeCase()
    ensures forall i :: 0 <= i < |FeatureInfo| ==> SnakeCase(FeatureInfo[i])
  {
  }

  lemma ConditionInfoSnakeCase()
    ensures forall i :: 0 <= i < |ConditionInfo| ==> SnakeCase(ConditionInfo[i])
  {
  }

  lemma ChargeInfoSnakeCase()
    ensures forall i :: 0 <= i < |ChargeInfo| ==> SnakeCase(ChargeInfo[i])
  {
  }

  lemma SellerInfoSnakeCase()
    ensures forall i :: 0 <= i < |SellerInfo| ==> SnakeCase(SellerInfo[i])
  {
  }

  lemma NoteInfoSnakeCase()
    ensures forall i :: 0 <= i < |NoteInfo| ==> SnakeCase(NoteInfo[i])
  {
  }

  /** Every template key is in snake case. */
  lemma FieldsSnakeCase()
    ensures forall k :: k in Fields ==> SnakeCase(k)
  {
    GeneralInfoSnakeCase();
    SurfaceInfoSnakeCase();
    RoomInfoSnakeCase();
    FeatureInfoSnakeCase();
    ConditionInfoSnakeCase();
    ChargeInfoSnakeCase();
    SellerInfoSnakeCase();
    NoteInfoSnakeCase();
  }

  /** No two template fields share a label, so neither view ever shows the
      same label for two fields. */
  lemma FieldLabelsDistinct()
    ensures NoDuplicates(LabelsOf(Fields))
  {
    CategoriesPartitionFields();
    FieldsSnakeCase();
    var ls := LabelsOf(Fields);
    forall i, j | 0 <= i < j < |ls|
      ensures ls[i] != ls[j]
    {
      if ls[i] == ls[j] {
        HumanizeInjective(Fields[i], Fields[j]);
      }
    }
  }

}

=== FILE: schema.dfy ===
/**
 The field schema of a property sheet: the ordered template of field keys
 (`CHAMPS_BIEN` in bot.py) and the eight display categories that group them
 (the `categories` table of `voir_fiche`).

 The template is one dict literal whose entries are laid out in eight
 commented groups; it is written here as those eight groups in order.
 The category table is a second, independent literal; the lemmas below
 prove that the two agree.
 */
module Schema {

  import opened Seqs

  /** A field key, as the template's dict key. */
  type Key = string

  // The template's groups, in dict insertion order.
  const GeneralInfo: seq<Key> := ["type_bien", "type_transaction", "prix", "adresse", "code_postal", "ville", "etage", "nombre_etages_immeuble"]
  const SurfaceInfo: seq<Key> := ["surface_habitable", "surface_terrain", "surface_sejour", "surface_cuisine"]
  const RoomInfo: seq<Key> := ["nombre_pieces", "nombre_chambres", "nombre_sdb", "nombre_wc"]
  const FeatureInfo: seq<Key> := ["balcon", "terrasse", "jardin", "cave", "parking", "garage", "piscine", "ascenseur", "digicode", "interphone"]
  const ConditionInfo: seq<Key> := ["etat_general", "annee_construction", "dpe_classe", "dpe_valeur", "ges_classe", "ges_valeur", "type_chauffage", "energie_chauffage"]
  const ChargeInfo: seq<Key> := ["charges_copro_mois", "taxe_fonciere_an", "nombre_lots_copro", "syndic"]
  const SellerInfo: seq<Key> := ["nom_proprietaire", "tel_proprietaire", "email_proprietaire"]
  const NoteInfo: seq<Key> := ["points_forts", "points_faibles", "notes_agent"]

  /** The template's keys, in dict insertion order. */
  const Fields: seq<Key> :=
    GeneralInfo + SurfaceInfo + RoomInfo + FeatureInfo + ConditionInfo + ChargeInfo + SellerInfo + NoteInfo

  /** The number of keys the template actually holds (its comment says 40). */
  const FieldCount: nat := 44

  /** A display category: its header text and the keys it lists, in display order. */
  datatype Category = Category(name: string, keys: seq<Key>)

  /** The display categories of the full-sheet view, in display order
      (the header emoji are not part of the model). */
  const Categories: seq<Category> := [
    Category("Général", ["type_bien", "type_transaction", "prix", "adresse", "code_postal", "ville", "etage", "nombre_etages_immeuble"]),
    Category("Surfaces", ["surface_habitable", "surface_terrain", "surface_sejour", "surface_cuisine"]),
    Category("Pièces", ["nombre_pieces", "nombre_chambres", "nombre_sdb", "nombre_wc"]),
    Category("Caractéristiques", ["balcon", "terrasse", "jardin", "cave", "parking", "garage", "piscine", "ascenseur", "digicode", "interphone"]),
    Category("État & Énergie", ["etat_general", "annee_construction", "dpe_classe", "dpe_valeur", "ges_classe", "ges_valeur", "type_chauffage", "energie_chauffage"]),
    Category("Charges", ["charges_copro_mois", "taxe_fonciere_an", "nombre_lots_copro", "syndic"]),
    Category("Propriétaire", ["nom_proprietaire", "tel_proprietaire", "email_proprietaire"]),
    Category("Notes", ["points_forts", "points_faibles", "notes_agent"])
  ]

  /** Each category lists distinct keys, and no key is listed by two categories. */
  predicate Partitioned(cats: seq<Category>) {
    && (forall a :: 0 <= a < |cats| ==> NoDuplicates(cats[a].keys))
    && (forall a, b :: 0 <= a < b < |cats| ==> Disjoint(cats[a].keys, cats[b].keys))
  }

  /** The keys of all categories, one category after another. */
  function Flatten(cats: seq<Category>): seq<Key>
  {
    if |cats| == 0 then [] else Flatten(cats[..|cats| - 1]) + cats[|cats| - 1].keys
  }

  /** The index of the category listing key `k`. */
  function CategoryOf(cats: seq<Category>, k: Key): (r: nat)
    requires k in Flatten(cats)
    ensures r < |cats| && k in cats[r].keys
  {
    var n := |cats| - 1;
    if k in cats[n].keys then n else CategoryOf(cats[..n], k)
  }

  lemma FlattenPrefix(cats: seq<Category>, n: nat)
    requires n < |cats|
    ensures Flatten(cats[..n + 1]) == Flatten(cats[..n]) + cats[n].keys
  {
    assert cats[..n + 1][..n] == cats[..n];
  }

  /** Every key a category lists is among the flattened keys. */
  lemma {:induction false} FlattenMembers(cats: seq<Category>, a: nat, k: Key)
    requires a < |cats| && k in cats[a].keys
    ensures k in Flatten(cats)
  {
    var n := |cats| - 1;
    if a < n {
      assert cats[..n][a] == cats[a];
      FlattenMembers(cats[..n], a, k);
    }
  }

  /** Concatenating the key lists of a partition repeats no key. */
  lemma {:induction false} FlattenNoDuplicates(cats: seq<Category>)
    requires Partitioned(cats)
    ensures NoDuplicates(Flatten(cats))
  {
    if |cats| > 0 {
      var n := |cats| - 1;
      var front := cats[..n];
      assert Partitioned(front) by {
        forall a | 0 <= a < n ensures front[a] == cats[a] { }
      }
      FlattenNoDuplicates(front);
      var f := Flatten(front);
      var last := cats[n].keys;
      assert NoDuplicates(last);
      forall i, j | 0 <= i < |f| && 0 <= j < |last|
        ensures f[i] != last[j]
      {
        var a := CategoryOf(front, f[i]);
        assert front[a] == cats[a];
        var p :| 0 <= p < |cats[a].keys| && cats[a].keys[p] == f[i];
        assert Disjoint(cats[a].keys, last);
      }
      assert Flatten(cats) == f + last;
    }
  }

  lemma CategoryKeysMatchGroups()
    ensures Categories[0].keys == GeneralInfo && Categories[1].keys == SurfaceInfo
    ensures Categories[2].keys == RoomInfo && Categories[3].keys == FeatureInfo
    ensures Categories[4].keys == ConditionInfo && Categories[5].keys == ChargeInfo
    ensures Categories[6].keys == SellerInfo && Categories[7].keys == NoteInfo
  {
  }

  lemma CategoriesMatchTemplate()
    ensures Flatten(Categories) == Fields
  {
    var c := Categories;
    CategoryKeysMatchGroups();
    FlattenPrefix(c, 0); FlattenPrefix(c, 1); FlattenPrefix(c, 2); FlattenPrefix(c, 3);
    FlattenPrefix(c, 4); FlattenPrefix(c, 5); FlattenPrefix(c, 6); FlattenPrefix(c, 7);
    assert c[..0] == [];
    assert c[..8] == c;
    assert [] + GeneralInfo == GeneralInfo;
  }

  lemma CategoriesDistinctWithinFirst()
    ensures forall a :: 0 <= a < 4 ==> NoDuplicates(Categories[a].keys)
  {
  }

  lemma CategoriesDistinctWithinRest()
    ensures forall a :: 4 <= a < |Categories| ==> NoDuplicates(Categories[a].keys)
  {
  }

  lemma CategoriesDistinctWithin()
    ensures forall a :: 0 <= a < |Categories| ==> NoDuplicates(Categories[a].keys)
  {
    CategoriesDistinctWithinFirst();
    CategoriesDistinctWithinRest();
  }

  lemma CategoriesDisjointFirst()
    ensures forall b :: 0 < b < |Categories| ==> Disjoint(Categories[0].keys, Categories[b].keys)
  {
  }

  lemma CategoriesDisjointSecondThird()
    ensures forall a, b :: 1 <= a <= 2 && a < b < |Categories| ==> Disjoint(Categories[a].keys, Categories[b].keys)
  {
  }

  lemma CategoriesDisjointFourth()
    ensures forall b :: 3 < b < |Categories| ==> Disjoint(Categories[3].keys, Categories[b].keys)
  {
  }

  lemma CategoriesDisjointRest()
    ensures forall a, b :: 4 <= a < b < |Categories| ==> Disjoint(Categories[a].keys, Categories[b].keys)
  {
  }

  /** The eight category lists partition the template: each key is listed
      once, by exactly one category, in the template's order, and nothing else
      is listed. */
  lemma CategoriesPartitionFields()
    ensures |Categories| == 8
    ensures Partitioned(Categories)
    ensures Flatten(Categories) == Fields
    ensures NoDuplicates(Fields)
    ensures |Fields| == FieldCount
    ensures forall k :: k in Fields <==> exists a :: 0 <= a < |Categories| && k in Categories[a].keys
  {
    CategoriesDistinctWithin();
    CategoriesDisjointFirst();
    CategoriesDisjointSecondThird();
    CategoriesDisjointFourth();
    CategoriesDisjointRest();
    CategoriesMatchTemplate();
    FlattenNoDuplicates(Categories);
    forall k | k in Fields
      ensures exists a :: 0 <= a < |Categories| && k in Categories[a].keys
    {
      var a := CategoryOf(Categories, k);
    }
    forall a, k | 0 <= a < |Categories| && k in Categories[a].keys
      ensures k in Fields
    {
      FlattenMembers(Categories, a, k);
    }
  }

}

=== FILE: seqs.dfy ===
/** Generic facts about sequences used by the sheet model. */
module Seqs {

  /** No element occurs twice. */
  predicate NoDuplicates<T(==)>(s: seq<T>) {
    forall i, j :: 0 <= i < j < |s| ==> s[i] != s[j]
  }

  /** No element of `a` occurs in `b`. */
  predicate Disjoint<T(==)>(a: seq<T>, b: seq<T>) {
    forall i, j :: 0 <= i < |a| && 0 <= j < |b| ==> a[i] != b[j]
  }

  /** `a` is `b` with some elements dropped and the rest kept in order
      (matched greedily from the back). */
  predicate IsSubsequence<T(==)>(a: seq<T>, b: seq<T>)
    decreases |b|
  {
    if |a| == 0 then true
    else if |b| == 0 then false
    else if a[|a| - 1] == b[|b| - 1] then IsSubsequence(a[..|a| - 1], b[..|b| - 1])
    else IsSubsequence(a, b[..|b| - 1])
  }

  /** A subsequence stays one when the longer sequence grows at the back. */
  lemma {:induction false} SubsequenceExtend<T>(a: seq<T>, b: seq<T>, x: T)
    requires IsSubsequence(a, b)
    ensures IsSubsequence(a, b + [x])
    decreases |b|, 1
  {
    var b' := b + [x];
    assert b'[..|b'| - 1] == b;
    if |a| > 0 && a[|a| - 1] == x {
      // The greedy match now pairs the last element of `a` with `x`.
      SubsequenceDropLast(a, b);
    }
  }

  /** Dropping the last element of the shorter sequence keeps a subsequence. */
  lemma {:induction false} SubsequenceDropLast<T>(a: seq<T>, b: seq<T>)
    requires |a| > 0 && IsSubsequence(a, b)
    ensures IsSubsequence(a[..|a| - 1], b)
    decreases |b|, 0
  {
    var a' := a[..|a| - 1];
    var b' := b[..|b| - 1];
    if a[|a| - 1] == b[|b| - 1] {
      if |a'| > 0 {
        SubsequenceDropLast(a', b');
        SubsequenceExtend(a'[..|a'| - 1], b', b[|b| - 1]);
        assert b' + [b[|b| - 1]] == b;
        if a'[|a'| - 1] != b[|b| - 1] {
          SubsequenceExtend(a', b', b[|b| - 1]);
        }
      }
    } else {
      SubsequenceDropLast(a, b');
      SubsequenceExtend(a', b', b[|b| - 1]);
      assert b' + [b[|b| - 1]] == b;
    }
  }

  /** Every element of a subsequence occurs in the longer sequence. */
  lemma {:induction false} SubsequenceMembers<T>(a: seq<T>, b: seq<T>)
    requires IsSubsequence(a, b)
    ensures forall x :: x in a ==> x in b
    decreases |b|
  {
    if |a| > 0 {
      var b' := b[..|b| - 1];
      if a[|a| - 1] == b[|b| - 1] {
        SubsequenceMembers(a[..|a| - 1], b');
        assert a == a[..|a| - 1] + [a[|a| - 1]];
      } else {
        SubsequenceMembers(a, b');
      }
    }
  }

}

=== FILE: sheets.dfy ===
/**
 A property sheet: one conversation's field values, as the dict that
 `json.loads(json.dumps(CHAMPS_BIEN))` produces in bot.py and the handlers
 read. A Python dict keeps its keys in insertion order, so a sheet is an
 ordered list of entries; Python's `None` is `Option.None` ("unset").
 */
module Sheets {

  import opened Seqs
  import opened Schema

  datatype Option<+T> = None | Some(value: T)

  /** A field value: a JSON string, integer, non-integer number or boolean
      (JSON's null is the unset `None`). Nothing in the handlers ever stores
      one; the variants stand for what an extraction step could store, such
      as a surface of 65.5. */
  datatype Value = Text(text: string) | Integer(number: int) | Decimal(amount: real) | Boolean(flag: bool)

  datatype Entry = Entry(key: Key, value: Option<Value>)

  /** A sheet, in dict order. */
  type Sheet = seq<Entry>

  /** The sheet's keys, in dict order. */
  function Keys(s: Sheet): (r: seq<Key>)
    ensures |r| == |s|
    ensures forall i :: 0 <= i < |s| ==> r[i] == s[i].key
  {
    seq(|s|, i requires 0 <= i < |s| => s[i].key)
  }

  /** The sheet invariant: exactly the template's keys, in the template's order. */
  predicate WellFormed(s: Sheet) {
    Keys(s) == Fields
  }

  /** The value a sheet holds under key `k`: unset both for an unset field
      and for a key the sheet does not have. A value is found only under a
      key the sheet has. */
  function Get(s: Sheet, k: Key): (r: Option<Value>)
    ensures r.Some? ==> k in Keys(s)
  {
    if |s| == 0 then None
    else if s[0].key == k then s[0].value
    else Get(s[1..], k)
  }

  /** `fiche.get(k)` finds the entry stored under `k`: a set result is the
      value of an entry with that key, a key the sheet lacks reads as unset,
      and when keys are distinct the result is that key's entry's value. */
  lemma {:induction false} GetFindsEntry(s: Sheet, k: Key)
    ensures Get(s, k).Some? ==> exists i :: 0 <= i < |s| && s[i].key == k && s[i].value == Get(s, k)
    ensures k !in Keys(s) ==> Get(s, k) == None
    ensures NoDuplicates(Keys(s)) ==> forall i :: 0 <= i < |s| && s[i].key == k ==> Get(s, k) == s[i].value
    decreases |s|
  {
    if |s| > 0 && s[0].key != k {
      var rest := s[1..];
      GetFindsEntry(rest, k);
      assert forall i :: 0 < i < |s| ==> rest[i - 1] == s[i];
      assert Keys(rest) == Keys(s)[1..];
      if Get(s, k).Some? {
        var i :| 0 <= i < |rest| && rest[i].key == k && rest[i].value == Get(s, k);
        assert s[i + 1] == rest[i];
      }
    }
  }

  /** The sheet has no key, or every field of it is unset. */
  predicate IsBlank(s: Sheet) {
    |s| == 0 || forall i :: 0 <= i < |s| ==> s[i].value == None
  }

  /** The number of set fields of the sheet. */
  function CountFilled(s: Sheet): (r: nat)
    ensures r <= |s|
  {
    if |s| == 0 then 0
    else
      var n := |s| - 1;
      CountFilled(s[..n]) + if s[n].value.Some? then 1 else 0
  }

  /** No field is counted exactly when the sheet is blank, and every field is
      counted exactly when every field is set. */
  lemma {:induction false} CountFilledExtremes(s: Sheet)
    ensures CountFilled(s) == 0 <==> IsBlank(s)
    ensures CountFilled(s) == |s| <==> forall i :: 0 <= i < |s| ==> s[i].value.Some?
    decreases |s|
  {
    if |s| > 0 {
      var n := |s| - 1;
      CountFilledExtremes(s[..n]);
      assert forall i :: 0 <= i < n ==> s[..n][i] == s[i];
    }
  }

  /** The keys among `keys` whose field is set in `s`, in the order of `keys`:
      the fields a rendering loop over `keys` shows. */
  function SetKeys(s: Sheet, keys: seq<Key>): (r: seq<Key>)
    ensures |r| <= |keys|
    ensures forall i :: 0 <= i < |r| ==> Get(s, r[i]).Some?
  {
    if |keys| == 0 then []
    else
      var n := |keys| - 1;
      var front := SetKeys(s, keys[..n]);
      assert keys == keys[..n] + [keys[n]];
      if Get(s, keys[n]).Some? then front + [keys[n]] else front
  }

  /** The keys of the unset fields of `s`, in dict order: the fields the
      missing-field listing names. */
  function UnsetKeys(s: Sheet): (r: seq<Key>)
    ensures |r| + CountFilled(s) == |s|
  {
    if |s| == 0 then []
    else
      var n := |s| - 1;
      var front := UnsetKeys(s[..n]);
      if s[n].value == None then front + [s[n].key] else front
  }

  lemma KeysSnoc(s: Sheet)
    requires |s| > 0
    ensures Keys(s) == Keys(s[..|s| - 1]) + [s[|s| - 1].key]
  {
  }

  /** A fresh copy of the template: every template key, in order, unset. */
  function Fresh(): (r: Sheet)
    ensures WellFormed(r)
    ensures |r| == FieldCount
    ensures CountFilled(r) == 0
    ensures forall k :: Get(r, k) == None
  {
    CategoriesPartitionFields();
    var r := seq(|Fields|, i requires 0 <= i < |Fields| => Entry(Fields[i], None));
    CountFilledExtremes(r);
    assert forall k :: Get(r, k) == None by {
      forall k ensures Get(r, k) == None {
        GetFindsEntry(r, k);
      }
    }
    r
  }

  /** A key is shown exactly when it is scanned and its field is set. */
  lemma {:induction false} SetKeysMembers(s: Sheet, keys: seq<Key>)
    ensures forall k :: k in SetKeys(s, keys) <==> k in keys && Get(s, k).Some?
    decreases |keys|
  {
    if |keys| > 0 {
      var n := |keys| - 1;
      SetKeysMembers(s, keys[..n]);
      assert keys == keys[..n] + [keys[n]];
    }
  }

  /** The shown keys keep the order of the scanned keys. */
  lemma {:induction false} SetKeysInOrder(s: Sheet, keys: seq<Key>)
    ensures IsSubsequence(SetKeys(s, keys), keys)
    decreases |keys|
  {
    if |keys| > 0 {
      var n := |keys| - 1;
      SetKeysInOrder(s, keys[..n]);
      assert keys == keys[..n] + [keys[n]];
      SubsequenceExtend(SetKeys(s, keys[..n]), keys[..n], keys[n]);
    }
  }

  /** The missing-field keys keep the sheet's key order. */
  lemma {:induction false} UnsetKeysInOrder(s: Sheet)
    ensures IsSubsequence(UnsetKeys(s), Keys(s))
    decreases |s|
  {
    if |s| > 0 {
      var n := |s| - 1;
      UnsetKeysInOrder(s[..n]);
      KeysSnoc(s);
      SubsequenceExtend(UnsetKeys(s[..n]), Keys(s[..n]), s[n].key);
    }
  }

  /** Splitting the scanned keys splits the shown keys the same way. */
  lemma {:induction false} SetKeysAppend(s: Sheet, a: seq<Key>, b: seq<Key>)
    ensures SetKeys(s, a + b) == SetKeys(s, a) + SetKeys(s, b)
    decreases |b|
  {
    if |b| > 0 {
      var n := |b| - 1;
      assert (a + b)[..|a + b| - 1] == a + b[..n];
      SetKeysAppend(s, a, b[..n]);
    } else {
      assert a + b == a;
    }
  }

  /** Only the values `s` and `t` give the scanned keys matter. */
  lemma {:induction false} SetKeysAgree(s: Sheet, t: Sheet, keys: seq<Key>)
    requires forall k :: k in keys ==> Get(s, k) == Get(t, k)
    ensures SetKeys(s, keys) == SetKeys(t, keys)
    decreases |keys|
  {
    if |keys| > 0 {
      SetKeysAgree(s, t, keys[..|keys| - 1]);
    }
  }

  /** Scanning a sheet's own keys finds every set field once, when the keys
      are distinct. */
  lemma {:induction false} SetKeysOfOwnKeys(s: Sheet)
    requires NoDuplicates(Keys(s))
    ensures |SetKeys(s, Keys(s))| == CountFilled(s)
    decreases |s|
  {
    if |s| > 0 {
      var n := |s| - 1;
      var front := s[..n];
      assert Keys(s) == Keys(front) + [s[n].key];
      assert Keys(front) == Keys(s)[..n];
      assert NoDuplicates(Keys(front));
      SetKeysOfOwnKeys(front);
      forall k | k in Keys(front)
        ensures Get(s, k) == Get(front, k)
      {
        var i :| 0 <= i < n && front[i].key == k;
        assert s[i] == front[i];
        GetFindsEntry(s, k);
        GetFindsEntry(front, k);
      }
      GetFindsEntry(s, s[n].key);
      SetKeysAgree(s, front, Keys(front));
      SetKeysAppend(s, Keys(front), [s[n].key]);
      assert [s[n].key][..0] == [];
      assert CountFilled(s) == CountFilled(front) + if s[n].value.Some? then 1 else 0;
    }
  }

  /** On a well-formed sheet, counting the set fields category by category
      (as the full-sheet view does) counts every set field of the sheet,
      because the categories cover every key exactly once. */
  lemma CategoryCountIsFilledCount(s: Sheet)
    requires WellFormed(s)
    ensures |SetKeys(s, Flatten(Categories))| == CountFilled(s)
  {
    CategoriesPartitionFields();
    SetKeysOfOwnKeys(s);
  }

  /** Every unset entry's key is among the missing-field keys. */
  lemma {:induction false} UnsetKeysComplete(s: Sheet)
    ensures forall i :: 0 <= i < |s| && s[i].value == None ==> s[i].key in UnsetKeys(s)
    decreases |s|
  {
    if |s| > 0 {
      var n := |s| - 1;
      var front := s[..n];
      UnsetKeysComplete(front);
      var r := UnsetKeys(s);
      var rf := UnsetKeys(front);
      assert forall k :: k in rf ==> k in r;
      forall i | 0 <= i < n && s[i].value == None
        ensures s[i].key in rf
      {
        assert front[i] == s[i];
      }
    }
  }

  /** Every missing-field key belongs to an unset entry. */
  lemma {:induction false} UnsetKeysSound(s: Sheet)
    ensures forall k :: k in UnsetKeys(s) ==> exists i :: 0 <= i < |s| && s[i].key == k && s[i].value == None
    decreases |s|
  {
    if |s| > 0 {
      var n := |s| - 1;
      var front := s[..n];
      UnsetKeysSound(front);
      forall k | k in UnsetKeys(front)
        ensures exists i :: 0 <= i < |s| && s[i].key == k && s[i].value == None
      {
        var i :| 0 <= i < n && front[i].key == k && front[i].value == None;
        assert s[i] == front[i];
      }
    }
  }

  /** A blank sheet reads as unset under every key. */
  lemma BlankReadsUnset(s: Sheet)
    requires IsBlank(s)
    ensures forall k :: Get(s, k) == None
  {
    forall k ensures Get(s, k) == None {
      GetFindsEntry(s, k);
    }
  }

  /** On a well-formed sheet, every missing-field key is a template key. */
  lemma UnsetKeysAreFields(s: Sheet)
    requires WellFormed(s)
    ensures forall k :: k in UnsetKeys(s) ==> k in Fields
  {
    UnsetKeysInOrder(s);
    SubsequenceMembers(UnsetKeys(s), Keys(s));
  }

  /** On a sheet with every field unset, the missing-field keys are all its keys. */
  lemma {:induction false} UnsetKeysOfBlank(s: Sheet)
    requires forall i :: 0 <= i < |s| ==> s[i].value == None
    ensures UnsetKeys(s) == Keys(s)
    decreases |s|
  {
    if |s| > 0 {
      var n := |s| - 1;
      assert forall i :: 0 <= i < n ==> s[..n][i] == s[i];
      UnsetKeysOfBlank(s[..n]);
      assert Keys(s) == Keys(s[..n]) + [s[n].key];
    }
  }

}

=== FILE: views.dfy ===
/**
 The two read-only views over a sheet in bot.py: the full sheet of `/fiche`
 (`voir_fiche`) and the missing-field list of `/manque` (`voir_manque`).

 Replies are structured: a reply names which fixed message is sent and
 carries the data interpolated into it. The French wording, the emoji, the
 Markdown markup and the way numbers and values are turned into text are
 not part of the model.
 */
module Views {

  import opened Seqs
  import opened Schema
  import opened Labels
  import opened Sheets

  /** One line of the full-sheet report (an element of `lignes`). */
  datatype Line =
    | Title                                 // the report's title line
    | Progress(filled: nat, total: nat)     // "Progression: filled/total champs remplis"
    | Header(category: string)              // a category header
    | Item(field: string, value: Value)     // "label: value" for a set field

  /** A reply the bot sends. */
  datatype Reply =
    | Welcome                                       // /start
    | ResetDone                                     // /reset
    | EmptySheet                                    // /fiche on a blank sheet
    | Report(lines: seq<Line>)                      // /fiche otherwise
    | AllComplete                                   // /manque with nothing missing
    | MissingList(labels: seq<string>, remaining: nat)  // /manque otherwise
    | Ack(filled: nat, total: nat, echo: string)    // any plain text message

  /** The item lines of one category (`cat_lignes`): one line per set key, in
      the category's order, labelled with the key's label. */
  function Items(s: Sheet, keys: seq<Key>): (r: seq<Line>)
    ensures |r| == |SetKeys(s, keys)|
    ensures forall i :: 0 <= i < |r| ==> r[i].Item?
  {
    if |keys| == 0 then []
    else
      var n := |keys| - 1;
      var front := Items(s, keys[..n]);
      match Get(s, keys[n])
      case Some(v) => front + [Item(Humanize(keys[n]), v)]
      case None => front
  }

  /** Each item line names a set key, in the order of `keys`, with the key's
      label and its value. */
  lemma {:induction false} ItemsShowSetKeys(s: Sheet, keys: seq<Key>)
    ensures forall i :: 0 <= i < |Items(s, keys)| ==>
      && Items(s, keys)[i].field == Humanize(SetKeys(s, keys)[i])
      && Get(s, SetKeys(s, keys)[i]) == Some(Items(s, keys)[i].value)
    decreases |keys|
  {
    if |keys| > 0 {
      ItemsShowSetKeys(s, keys[..|keys| - 1]);
    }
  }

  /** One category's part of the report: nothing when none of its fields is
      set, otherwise its header followed by its item lines. */
  function Section(s: Sheet, c: Category): (r: seq<Line>)
    ensures |r| == 0 <==> |SetKeys(s, c.keys)| == 0
    ensures |r| > 0 ==> |r| == 1 + |SetKeys(s, c.keys)| && r[0] == Header(c.name)
    ensures forall i :: 0 < i < |r| ==> r[i].Item?
  {
    var items := Items(s, c.keys);
    if |items| == 0 then [] else [Header(c.name)] + items
  }

  /** The sections of all categories, in category order: header and item
      lines only, at least as many of them as set keys the categories list. */
  function Body(s: Sheet, cats: seq<Category>): (r: seq<Line>)
    ensures forall i :: 0 <= i < |r| ==> r[i].Item? || r[i].Header?
    ensures |r| >= |SetKeys(s, Flatten(cats))|
  {
    if |cats| == 0 then []
    else
      var n := |cats| - 1;
      SetKeysAppend(s, Flatten(cats[..n]), cats[n].keys);
      assert Flatten(cats) == Flatten(cats[..n]) + cats[n].keys;
      Body(s, cats[..n]) + Section(s, cats[n])
  }

  /** A line the report may hold past its title and progress line: an item
      line, or the header of a category of `cats` that has a set field. */
  predicate BodyLine(s: Sheet, cats: seq<Category>, l: Line) {
    l.Item? || exists a :: 0 <= a < |cats| && l == Header(cats[a].name) && |SetKeys(s, cats[a].keys)| > 0
  }

  /** Every line of `lines` is a `BodyLine`. */
  predicate BodyLinesOnly(s: Sheet, cats: seq<Category>, lines: seq<Line>) {
    forall i :: 0 <= i < |lines| ==> BodyLine(s, cats, lines[i])
  }

  /** The body holds item lines and the headers of categories with a set
      field, and nothing else. */
  lemma {:induction false} BodyLines(s: Sheet, cats: seq<Category>)
    ensures BodyLinesOnly(s, cats, Body(s, cats))
    decreases |cats|
  {
    if |cats| > 0 {
      var n := |cats| - 1;
      BodyLines(s, cats[..n]);
      BodyLinesWiden(s, cats, n, Body(s, cats[..n]));
      SectionLines(s, cats, n);
      BodyLinesAppend(s, cats, Body(s, cats[..n]), Section(s, cats[n]));
    }
  }

  lemma SectionLines(s: Sheet, cats: seq<Category>, n: nat)
    requires n < |cats|
    ensures BodyLinesOnly(s, cats, Section(s, cats[n]))
  {
    var sec := Section(s, cats[n]);
    if |sec| > 0 {
      assert BodyLine(s, cats, sec[0]);
    }
  }

  lemma BodyLinesWiden(s: Sheet, cats: seq<Category>, n: nat, lines: seq<Line>)
    requires n <= |cats| && BodyLinesOnly(s, cats[..n], lines)
    ensures BodyLinesOnly(s, cats, lines)
  {
    forall i | 0 <= i < |lines|
      ensures BodyLine(s, cats, lines[i])
    {
      if !lines[i].Item? {
        var a :| 0 <= a < n && lines[i] == Header(cats[..n][a].name) && |SetKeys(s, cats[..n][a].keys)| > 0;
        assert cats[..n][a] == cats[a];
      }
    }
  }

  lemma BodyLinesAppend(s: Sheet, cats: seq<Category>, a: seq<Line>, b: seq<Line>)
    requires BodyLinesOnly(s, cats, a) && BodyLinesOnly(s, cats, b)
    ensures BodyLinesOnly(s, cats, a + b)
  {
    forall i | 0 <= i < |a + b|
      ensures BodyLine(s, cats, (a + b)[i])
    {
      if i < |a| {
        assert (a + b)[i] == a[i];
      } else {
        assert (a + b)[i] == b[i - |a|];
      }
    }
  }

  /** The `/fiche` reply for a sheet under the category table `cats`: the
      fixed empty-sheet message for a blank sheet, otherwise the title, the
      progress line and the sections. */
  function Render(s: Sheet, cats: seq<Category>): (r: Reply)
    ensures r.EmptySheet? <==> IsBlank(s)
    ensures r.EmptySheet? || r.Report?
    ensures r.Report? ==> |r.lines| >= 2 && r.lines[0] == Title && r.lines[1] == Progress(|SetKeys(s, Flatten(cats))|, |s|)
  {
    if IsBlank(s) then EmptySheet
    else Report([Title, Progress(|SetKeys(s, Flatten(cats))|, |s|)] + Body(s, cats))
  }

  /** The `/fiche` reply for a sheet. A blank sheet gets the fixed empty-sheet
      message; any other gets a report that opens with the title and the
      progress line, which counts the set fields the categories list, out of
      the number of keys the sheet has. On a well-formed sheet that count is
      every set field, out of the template's 44. */
  function RenderSheet(s: Sheet): (r: Reply)
    ensures r.EmptySheet? <==> IsBlank(s)
    ensures r.EmptySheet? || r.Report?
    ensures r.Report? ==> |r.lines| >= 2 && r.lines[0] == Title && r.lines[1] == Progress(|SetKeys(s, Fields)|, |s|)
    ensures r.Report? && WellFormed(s) ==> r.lines[1] == Progress(CountFilled(s), FieldCount)
  {
    CategoriesMatchTemplate();
    assert WellFormed(s) ==> |SetKeys(s, Flatten(Categories))| == CountFilled(s) by {
      if WellFormed(s) { CategoryCountIsFilledCount(s); }
    }
    Render(s, Categories)
  }

  /** `voir_fiche` as the source writes it: a loop over the categories with an
      inner loop over their keys, collecting each category's lines and
      counting the shown fields, then inserting the progress line after the
      title. */
  method RenderSheetLoop(fiche: Sheet) returns (r: Reply)
    ensures r == RenderSheet(fiche)
  {
    r := RenderLoop(fiche, Categories);
  }

  /** The loops of `voir_fiche`, over any category table. */
  method RenderLoop(fiche: Sheet, cats: seq<Category>) returns (r: Reply)
    ensures r == Render(fiche, cats)
  {
    if IsBlank(fiche) {
      return EmptySheet;
    }
    var body := [];
    var filled := 0;
    var i := 0;
    while i < |cats|
      invariant 0 <= i <= |cats|
      invariant body == Body(fiche, cats[..i])
      invariant filled == |SetKeys(fiche, Flatten(cats[..i]))|
    {
      var cat := cats[i];
      var catLines := CategoryLines(fiche, cat.keys);
      if catLines != [] {
        body := body + ([Header(cat.name)] + catLines);
      }
      filled := filled + |catLines|;
      BodyPrefix(fiche, cats, i);
      FlattenPrefix(cats, i);
      SetKeysAppend(fiche, Flatten(cats[..i]), cat.keys);
      i := i + 1;
    }
    assert cats[..i] == cats;
    r := Report([Title, Progress(filled, |fiche|)] + body);
  }

  /** The inner loop of `voir_fiche`: the item lines of one category's keys. */
  method CategoryLines(fiche: Sheet, keys: seq<Key>) returns (catLines: seq<Line>)
    ensures catLines == Items(fiche, keys)
  {
    catLines := [];
    var j := 0;
    while j < |keys|
      invariant 0 <= j <= |keys|
      invariant catLines == Items(fiche, keys[..j])
    {
      var val := Get(fiche, keys[j]);
      ItemsPrefix(fiche, keys, j);
      if val.Some? {
        catLines := catLines + [Item(Humanize(keys[j]), val.value)];
      }
      j := j + 1;
    }
    assert keys[..j] == keys;
  }

  lemma ItemsPrefix(s: Sheet, keys: seq<Key>, j: nat)
    requires j < |keys|
    ensures Items(s, keys[..j + 1]) == Items(s, keys[..j]) +
      if Get(s, keys[j]).Some? then [Item(Humanize(keys[j]), Get(s, keys[j]).value)] else []
  {
    assert keys[..j + 1][..j] == keys[..j];
  }

  lemma BodyPrefix(s: Sheet, cats: seq<Category>, i: nat)
    requires i < |cats|
    ensures Body(s, cats[..i + 1]) == Body(s, cats[..i]) + Section(s, cats[i])
  {
    assert cats[..i + 1][..i] == cats[..i];
  }

  /** The item lines among `lines`, in order. */
  function ItemsOnly(lines: seq<Line>): seq<Line> {
    if |lines| == 0 then []
    else
      var n := |lines| - 1;
      ItemsOnly(lines[..n]) + if lines[n].Item? then [lines[n]] else []
  }

  lemma {:induction false} ItemsOnlyAppend(a: seq<Line>, b: seq<Line>)
    ensures ItemsOnly(a + b) == ItemsOnly(a) + ItemsOnly(b)
    decreases |b|
  {
    if |b| == 0 {
      assert a + b == a;
    } else {
      var n := |b| - 1;
      assert (a + b)[..|a + b| - 1] == a + b[..n];
      ItemsOnlyAppend(a, b[..n]);
    }
  }

  lemma {:induction false} ItemsOnlyOfItems(lines: seq<Line>)
    requires forall i :: 0 <= i < |lines| ==> lines[i].Item?
    ensures ItemsOnly(lines) == lines
    decreases |lines|
  {
    if |lines| > 0 {
      var n := |lines| - 1;
      ItemsOnlyOfItems(lines[..n]);
      assert lines == lines[..n] + [lines[n]];
    }
  }

  lemma {:induction false} ItemsOnlyOfNonItems(lines: seq<Line>)
    requires forall i :: 0 <= i < |lines| ==> !lines[i].Item?
    ensures ItemsOnly(lines) == []
    decreases |lines|
  {
    if |lines| > 0 {
      ItemsOnlyOfNonItems(lines[..|lines| - 1]);
    }
  }

  lemma {:induction false} ItemsAppend(s: Sheet, a: seq<Key>, b: seq<Key>)
    ensures Items(s, a + b) == Items(s, a) + Items(s, b)
    decreases |b|
  {
    if |b| == 0 {
      assert a + b == a;
    } else {
      var n := |b| - 1;
      assert (a + b)[..|a + b| - 1] == a + b[..n];
      ItemsAppend(s, a, b[..n]);
    }
  }

  /** Read past the headers, the report body lists the item lines of the
      categories' keys, one category after another. */
  lemma {:induction false} BodyItems(s: Sheet, cats: seq<Category>)
    ensures ItemsOnly(Body(s, cats)) == Items(s, Flatten(cats))
    decreases |cats|
  {
    if |cats| > 0 {
      var n := |cats| - 1;
      var c := cats[n];
      BodyItems(s, cats[..n]);
      ItemsAppend(s, Flatten(cats[..n]), c.keys);
      SectionItems(s, c);
      ItemsOnlyAppend(Body(s, cats[..n]), Section(s, c));
    }
  }

  lemma SectionItems(s: Sheet, c: Category)
    ensures ItemsOnly(Section(s, c)) == Items(s, c.keys)
  {
    var items := Items(s, c.keys);
    ItemsOnlyOfItems(items);
    if |items| > 0 {
      ItemsOnlyAppend([Header(c.name)], items);
      assert ItemsOnly([Header(c.name)]) == [];
    }
  }

  /** The report shows exactly the set fields: the item lines, read in order,
      are one `label: value` line per set template field, in template order;
      so a line `l: v` appears exactly when some template key labelled `l`
      holds `v`, and an unset field never appears. */
  lemma {:induction false} ReportShowsSetFields(s: Sheet)
    requires !IsBlank(s)
    ensures forall l, v :: Item(l, v) in RenderSheet(s).lines <==>
      exists k :: k in Fields && Get(s, k) == Some(v) && l == Humanize(k)
  {
    ReportItems(s);
    var lines := RenderSheet(s).lines;
    ItemsOnlyMembers(lines);
    ItemsMembers(s, Fields);
  }

  /** Read past the title, the progress line and the headers, the report
      lists one item line per set template field, in template order. */
  lemma ReportItems(s: Sheet)
    requires !IsBlank(s)
    ensures ItemsOnly(RenderSheet(s).lines) == Items(s, Fields)
  {
    CategoriesMatchTemplate();
    RenderItems(s, Categories);
  }

  lemma RenderItems(s: Sheet, cats: seq<Category>)
    requires !IsBlank(s)
    ensures ItemsOnly(Render(s, cats).lines) == Items(s, Flatten(cats))
  {
    var head := [Title, Progress(|SetKeys(s, Flatten(cats))|, |s|)];
    BodyItems(s, cats);
    ItemsOnlyAppend(head, Body(s, cats));
    ItemsOnlyOfNonItems(head);
  }

  /** An item line `l: v` is among the item lines of `keys` exactly when some
      key of `keys` labelled `l` holds `v`. */
  lemma ItemsMembers(s: Sheet, keys: seq<Key>)
    ensures forall l, v :: Item(l, v) in Items(s, keys) <==>
      exists k :: k in keys && Get(s, k) == Some(v) && l == Humanize(k)
  {
    var shown := SetKeys(s, keys);
    var items := Items(s, keys);
    ItemsShowSetKeys(s, keys);
    SetKeysMembers(s, keys);
    forall l, v | Item(l, v) in items
      ensures exists k :: k in keys && Get(s, k) == Some(v) && l == Humanize(k)
    {
      var i :| 0 <= i < |items| && items[i] == Item(l, v);
      assert shown[i] in shown;
    }
    forall l, v, k | k in keys && Get(s, k) == Some(v) && l == Humanize(k)
      ensures Item(l, v) in items
    {
      assert k in shown;
      var i :| 0 <= i < |shown| && shown[i] == k;
      assert items[i] == Item(l, v);
    }
  }

  /** A line is among the item lines exactly when it is an item line of `lines`. */
  lemma {:induction false} ItemsOnlyMembers(lines: seq<Line>)
    ensures forall l :: l in ItemsOnly(lines) <==> l in lines && l.Item?
    decreases |lines|
  {
    if |lines| > 0 {
      var n := |lines| - 1;
      ItemsOnlyMembers(lines[..n]);
      assert lines == lines[..n] + [lines[n]];
    }
  }

  /** No two categories share a name. */
  predicate NamesDistinct(cats: seq<Category>) {
    forall a, b :: 0 <= a < b < |cats| ==> cats[a].name != cats[b].name
  }

  /** A category's header appears in the report body exactly when the
      category has a set field. */
  lemma {:induction false} BodyHeaders(s: Sheet, cats: seq<Category>, a: nat)
    requires a < |cats| && NamesDistinct(cats)
    ensures Header(cats[a].name) in Body(s, cats) <==> |SetKeys(s, cats[a].keys)| > 0
    decreases |cats|
  {
    var n := |cats| - 1;
    var front := cats[..n];
    var name := cats[a].name;
    assert Body(s, cats) == Body(s, front) + Section(s, cats[n]);
    SectionHeaders(s, cats[n], name);
    if a < n {
      assert front[a] == cats[a];
      assert NamesDistinct(front);
      BodyHeaders(s, front, a);
    } else {
      NoHeaderNamed(s, front, name);
    }
  }

  /** A section holds one header: its category's, and only when it has a set field. */
  lemma SectionHeaders(s: Sheet, c: Category, name: string)
    ensures Header(name) in Section(s, c) <==> name == c.name && |SetKeys(s, c.keys)| > 0
  {
    var items := Items(s, c.keys);
    assert Header(name) !in items;
    if |items| > 0 {
      assert Section(s, c) == [Header(c.name)] + items;
    }
  }

  /** No header of a category outside `cats` appears in their body. */
  lemma {:induction false} NoHeaderNamed(s: Sheet, cats: seq<Category>, name: string)
    requires forall a :: 0 <= a < |cats| ==> cats[a].name != name
    ensures Header(name) !in Body(s, cats)
    decreases |cats|
  {
    if |cats| > 0 {
      var n := |cats| - 1;
      SectionHeaders(s, cats[n], name);
      NoHeaderNamed(s, cats[..n], name);
    }
  }

  /** `lines` holds, at index `j`, the header `name` directly followed by `items`. */
  predicate SectionAt(lines: seq<Line>, j: nat, name: string, items: seq<Line>) {
    && j + 1 + |items| <= |lines|
    && lines[j] == Header(name)
    && lines[j + 1..j + 1 + |items|] == items
  }

  /** The header `name` occurs in `lines` at index `j` and nowhere else. */
  predicate OnlyHeaderAt(lines: seq<Line>, j: nat, name: string) {
    forall i :: 0 <= i < |lines| && lines[i] == Header(name) ==> i == j
  }

  /** In the body, a category with a set field has its header exactly once,
      directly followed by the category's item lines. */
  lemma {:induction false} BodySectionAt(s: Sheet, cats: seq<Category>, a: nat) returns (j: nat)
    requires a < |cats| && NamesDistinct(cats) && |Items(s, cats[a].keys)| > 0
    ensures SectionAt(Body(s, cats), j, cats[a].name, Items(s, cats[a].keys))
    ensures OnlyHeaderAt(Body(s, cats), j, cats[a].name)
    decreases |cats|
  {
    var n := |cats| - 1;
    var front := cats[..n];
    var b := Body(s, front);
    var c := cats[n];
    var name := cats[a].name;
    var items := Items(s, cats[a].keys);
    assert Body(s, cats) == b + Section(s, c);
    SectionHeaders(s, c, name);
    if a == n {
      NoHeaderNamed(s, front, name);
      j := |b|;
      SectionAtEnd(b, name, items);
    } else {
      assert front[a] == cats[a];
      assert NamesDistinct(front);
      j := BodySectionAt(s, front, a);
      SectionAtFront(b, Section(s, c), j, name, items);
    }
  }

  /** A section appended after a body free of its header sits right after it. */
  lemma SectionAtEnd(b: seq<Line>, name: string, items: seq<Line>)
    requires Header(name) !in b
    requires forall i :: 0 <= i < |items| ==> items[i].Item?
    ensures SectionAt(b + ([Header(name)] + items), |b|, name, items)
    ensures OnlyHeaderAt(b + ([Header(name)] + items), |b|, name)
  {
    var lines := b + ([Header(name)] + items);
    assert lines[|b| + 1..|b| + 1 + |items|] == items;
    forall i | 0 <= i < |lines| && i != |b|
      ensures lines[i] != Header(name)
    {
      if i < |b| {
        assert lines[i] == b[i];
      } else {
        assert lines[i] == items[i - |b| - 1];
      }
    }
  }

  /** Appending lines without the header keeps a section found in the front. */
  lemma SectionAtFront(b: seq<Line>, t: seq<Line>, j: nat, name: string, items: seq<Line>)
    requires SectionAt(b, j, name, items) && OnlyHeaderAt(b, j, name)
    requires Header(name) !in t
    ensures SectionAt(b + t, j, name, items) && OnlyHeaderAt(b + t, j, name)
  {
    assert (b + t)[j + 1..j + 1 + |items|] == b[j + 1..j + 1 + |items|];
    forall i | |b| <= i < |b + t|
      ensures (b + t)[i] != Header(name)
    {
      assert (b + t)[i] == t[i - |b|];
    }
  }

  /** In the report, a category with a set field has its header exactly
      once, directly followed by that category's item lines: each set field
      is shown under its own category's header. */
  lemma ReportSectionAt(s: Sheet, a: nat) returns (j: nat)
    requires !IsBlank(s) && a < |Categories| && |SetKeys(s, Categories[a].keys)| > 0
    ensures SectionAt(RenderSheet(s).lines, j, Categories[a].name, Items(s, Categories[a].keys))
    ensures OnlyHeaderAt(RenderSheet(s).lines, j, Categories[a].name)
  {
    assert NamesDistinct(Categories);
    j := RenderSectionAt(s, Categories, a);
  }

  lemma RenderSectionAt(s: Sheet, cats: seq<Category>, a: nat) returns (j: nat)
    requires !IsBlank(s) && a < |cats| && NamesDistinct(cats) && |Items(s, cats[a].keys)| > 0
    ensures SectionAt(Render(s, cats).lines, j, cats[a].name, Items(s, cats[a].keys))
    ensures OnlyHeaderAt(Render(s, cats).lines, j, cats[a].name)
  {
    var head := [Title, Progress(|SetKeys(s, Flatten(cats))|, |s|)];
    var k := BodySectionAt(s, cats, a);
    SectionAtBack(head, Body(s, cats), k, cats[a].name, Items(s, cats[a].keys));
    j := k + 2;
  }

  /** Prepending lines without the header moves a section back by their number. */
  lemma SectionAtBack(h: seq<Line>, b: seq<Line>, k: nat, name: string, items: seq<Line>)
    requires SectionAt(b, k, name, items) && OnlyHeaderAt(b, k, name)
    requires Header(name) !in h
    ensures SectionAt(h + b, |h| + k, name, items) && OnlyHeaderAt(h + b, |h| + k, name)
  {
    var j := |h| + k;
    assert (h + b)[j + 1..j + 1 + |items|] == b[k + 1..k + 1 + |items|];
    forall i | 0 <= i < |h + b| && i != j
      ensures (h + b)[i] != Header(name)
    {
      if i < |h| {
        assert (h + b)[i] == h[i];
      } else {
        assert (h + b)[i] == b[i - |h|];
      }
    }
  }

  /** Past the title and the progress line, the report holds only item
      lines and the headers of categories with a set field. */
  lemma ReportLines(s: Sheet)
    requires !IsBlank(s)
    ensures forall i :: 2 <= i < |RenderSheet(s).lines| ==> BodyLine(s, Categories, RenderSheet(s).lines[i])
  {
    RenderLines(s, Categories);
  }

  lemma RenderLines(s: Sheet, cats: seq<Category>)
    requires !IsBlank(s)
    ensures forall i :: 2 <= i < |Render(s, cats).lines| ==> BodyLine(s, cats, Render(s, cats).lines[i])
  {
    var head := [Title, Progress(|SetKeys(s, Flatten(cats))|, |s|)];
    var b := Body(s, cats);
    BodyLines(s, cats);
    forall i | 2 <= i < |head + b|
      ensures BodyLine(s, cats, (head + b)[i])
    {
      assert (head + b)[i] == b[i - 2];
    }
  }

  /** In the report, a category's header appears exactly when one of its
      fields is set: categories with no set field are left out. */
  lemma ReportShowsFilledCategories(s: Sheet, a: nat)
    requires !IsBlank(s) && a < |Categories|
    ensures Header(Categories[a].name) in RenderSheet(s).lines <==> |SetKeys(s, Categories[a].keys)| > 0
  {
    assert NamesDistinct(Categories);
    BodyHeaders(s, Categories, a);
  }

  /** The `/manque` reply for a sheet: the labels of the unset fields, in
      dict order, with their count; or the congratulation message when no
      field is unset. */
  function MissingReply(s: Sheet): (r: Reply)
    ensures r.AllComplete? || r.MissingList?
    ensures r.AllComplete? <==> CountFilled(s) == |s|
    ensures r.MissingList? ==> r.remaining == |r.labels| == |s| - CountFilled(s)
    ensures r.MissingList? ==> r.labels == LabelsOf(UnsetKeys(s))
  {
    var missing := LabelsOf(UnsetKeys(s));
    if |missing| == 0 then AllComplete else MissingList(missing, |missing|)
  }

  /** The listed labels are exactly those of the unset fields, each label
      names an unset field, and the fields are listed in the sheet's key
      order. */
  lemma {:induction false} MissingListsUnsetFields(s: Sheet)
    requires MissingReply(s).MissingList?
    ensures forall i :: 0 <= i < |s| && s[i].value == None ==> Humanize(s[i].key) in MissingReply(s).labels
    ensures forall l :: l in MissingReply(s).labels ==>
      exists i :: 0 <= i < |s| && s[i].value == None && l == Humanize(s[i].key)
    ensures IsSubsequence(UnsetKeys(s), Keys(s))
  {
    MissingLabelsComplete(s);
    MissingLabelsSound(s);
    UnsetKeysInOrder(s);
  }

  lemma {:induction false} MissingLabelsComplete(s: Sheet)
    ensures forall i :: 0 <= i < |s| && s[i].value == None ==> Humanize(s[i].key) in LabelsOf(UnsetKeys(s))
  {
    UnsetKeysComplete(s);
    forall i | 0 <= i < |s| && s[i].value == None
      ensures Humanize(s[i].key) in LabelsOf(UnsetKeys(s))
    {
      LabelOfMember(UnsetKeys(s), s[i].key);
    }
  }

  lemma {:induction false} MissingLabelsSound(s: Sheet)
    ensures forall l :: l in LabelsOf(UnsetKeys(s)) ==>
      exists i :: 0 <= i < |s| && s[i].value == None && l == Humanize(s[i].key)
  {
    var u := UnsetKeys(s);
    UnsetKeysSound(s);
    forall l | l in LabelsOf(u)
      ensures exists i :: 0 <= i < |s| && s[i].value == None && l == Humanize(s[i].key)
    {
      LabelHasKey(u, l);
      var k :| k in u && Humanize(k) == l;
      var i :| 0 <= i < |s| && s[i].key == k && s[i].value == None;
    }
  }

}
